=== FILE: README.md ===
# Barrel billing model

A Dafny model of the invoicing logic of a small olive-oil billing service.
Providers supply barrels of oil; invoices issued to a provider carry lines,
each line billing one whole barrel at a unit price per liter. The model
covers the three parts of `billing/models.py` that carry real rules:

- the billing operation `Invoice.add_line_for_barrel`, as the pure function
  `Billing.AddLineForBarrel` from a store and a request to a `Result` that
  holds either the new store and the new line or an error;
- the unbilled-liters aggregate (`BarrelQuerySet.unbilled`,
  `BarrelQuerySet.total_liters`, `Provider.liters_to_bill`), as
  `Queries.LitersToBill`, a provider filter, a billed-state filter and a sum;
- the invoice total `Invoice.calculate_total`, as `Queries.CalculateTotal`.

The whole database is one immutable `Models.Store` value holding four
sequences: providers, barrels, invoices and invoice lines, the lines in
creation order. A row's id is its position in its sequence. Prices are
integer cents, so the source's `Decimal` arithmetic is exact here too.
The `@transaction.atomic` decorator is modelled by `Billing.Commit`. After a
success the store is the new one. After a failure it is the old one, because
a rejected request carries no store. `Billing.AllOrNothing` states the
resulting all-or-nothing outcome.

Each aggregate has a one-pass reference sum over the whole store
(`Queries.UnbilledLiters`, `Queries.InvoiceAmount`). The contracts of
`Queries.LitersToBill` and `Queries.CalculateTotal` state that the
filter-then-sum definition equals it. The billing lemmas use these sums to
say how each aggregate moves after a successful call.

`add_line_for_barrel` never reads `billed` (billing/models.py:77-91). A
barrel that is already billed is billed again when the other checks pass
(`Billing.BilledBarrelIsBilledAgain`, `Demo.SeedRebillingFull`), so one
barrel can end up on several lines. A 150-liter request on the billed
200-liter barrel fails with `PartialBilling` (`Demo.SeedRebillingPartial`).
The engine still keeps three invariants (`Billing.Consistent`): every line
bills a barrel of its invoice's provider, every line bills its barrel's full
volume, and every barrel on a line is marked billed. This relies on the
invoice and the barrel handed to the engine matching their stored rows (see
"Left out").

`Demo` rebuilds the demonstration data of
`billing/management/commands/seed_demo.py`: provider "Acme Oils", barrels
B-001 (200 L) and B-002 (150 L), invoice INV-0001. Billing B-001 at 3.50 per
liter gives a 700.00 line. The issue date, which the script takes from the
clock, is a parameter.

## Model

| member | source | states |
|---|---|---|
| `Queries.BarrelsOf` | billing/models.py:39-41 | each barrel of the provider occurs in the result as often as in the store, and no other barrel occurs; the result is no longer than the store's barrel list |
| `Queries.Unbilled` | billing/models.py:12-13 | each barrel whose `billed` is false occurs in the result as often as in the input, and no billed barrel occurs |
| `Queries.BarrelFilterMembership` | billing/models.py:12-13 | a barrel is among a provider's barrels, or among the unbilled ones, exactly when it is in the input and passes that filter |
| `Queries.TotalLiters` | billing/models.py:15-17 | the liter sum of barrels with non-negative volumes is non-negative |
| `Queries.LitersToBill` | billing/models.py:12-29 | in every store, a provider's liters to bill equal the one-pass sum of `liters` over that provider's barrels with `billed == false` |
| `Queries.LitersToBillZero` | billing/models.py:12-17 | in every store, a provider with no unbilled barrel has 0 liters to bill (the `or 0` of an empty sum) |
| `Queries.UnbilledLitersZero` | billing/models.py:12-17 | in every store, the reference sum is 0 when no barrel of the provider is unbilled |
| `Queries.LitersToBillBounds` | billing/models.py:28-29 | when no barrel has negative liters (the database's `PositiveIntegerField` check), the liters to bill are never negative; when every barrel also holds at least one liter, they are 0 if and only if the provider has no unbilled barrel |
| `Queries.UnbilledLitersSign` | billing/models.py:44 | with no negative liters the reference sum is non-negative; with every barrel at least one liter, it is 0 if and only if no barrel of the provider is unbilled |
| `Queries.UnbilledLitersAfterMarking` | billing/models.py:100-101 | setting one barrel's `billed` lowers each provider's reference sum by that barrel's unbilled share and changes nothing else |
| `Queries.LitersToBillAfterMarking` | billing/models.py:100-101 | setting one barrel's `billed` lowers its provider's liters to bill by its volume if it was unbilled, and leaves every other provider's amount, and an already billed barrel's provider's amount, unchanged |
| `Queries.LinesOf` | billing/models.py:106 | each line that points at the invoice occurs in the result as often as in the store, and no other line occurs |
| `Queries.LineFilterMembership` | billing/models.py:106 | a line is among an invoice's lines exactly when it is in the store and points at that invoice |
| `Queries.Total` | billing/models.py:66 | the amount sum of lines with non-negative liters and prices is non-negative |
| `Queries.CalculateTotal` | billing/models.py:65-66 | in every store, an invoice's total equals the one-pass sum of `liters * unit_price` over exactly the lines that point at it |
| `Queries.CalculateTotalZero` | billing/models.py:65-66 | in every store, an invoice with no lines totals 0 (the empty `sum`) |
| `Queries.CalculateTotalBounds` | billing/models.py:65-66 | when no line has negative liters (the database check) and no line has a negative price, no invoice total is negative |
| `Queries.InvoiceAmountAppend` | billing/models.py:93-99 | appending a line adds its amount to its own invoice's sum and to no other |
| `Queries.LineCount` | billing/models.py:107-109 | the number of lines billing a barrel is 0 exactly when no line references it |
| `Queries.LineCountAppend` | billing/models.py:93-99 | appending a line adds one to the count of its own barrel and nothing to any other barrel's count |
| `Billing.AddLineForBarrel` | billing/models.py:68-102 | a barrel of another provider is rejected with a mismatch error naming the barrel number and both provider names; then liters <= 0 is rejected as an invalid quantity, then a price <= 0 as an invalid price, then liters different from the barrel's as partial billing; it succeeds exactly when all four checks pass; on success exactly one line with the given invoice, barrel, liters, price and description is appended, that barrel's `billed` becomes true, its other fields stay as they were, and no other barrel, invoice or provider changes |
| `Billing.AddLinePreservesConsistent` | billing/models.py:77-101 | every request, accepted or rejected, keeps the schema constraints and the cross-entity invariants: lines match their invoice's provider, bill full barrels, and point only at billed barrels |
| `Billing.BilledIsPermanent` | billing/models.py:100-101 | no request clears a barrel's `billed` flag |
| `Billing.AllOrNothing` | billing/models.py:68-101 | the committed store is the old one if and only if the request is rejected; an accepted request commits exactly the new line with the caller's values and the barrel's `billed` flag, and nothing else; a barrel of another provider is always rejected with a provider mismatch |
| `Billing.LitersToBillAfterBilling` | billing/models.py:93-101 | after a success each provider's liters to bill drop by the barrel's unbilled share; for a barrel that was unbilled, its own provider's amount drops by exactly the billed liters |
| `Billing.TotalAfterBilling` | billing/models.py:93-99 | after a success the invoice's total grows by liters times unit price and every other invoice's total is unchanged |
| `Billing.LineCountAfterBilling` | billing/models.py:93-99 | each success adds one line for the billed barrel and none for any other barrel |
| `Billing.FirstBillingGivesOneLine` | billing/models.py:77-101 | in a consistent store, billing an unbilled barrel of the invoice's provider succeeds and leaves the barrel on exactly one line |
| `Billing.BilledBarrelIsBilledAgain` | billing/models.py:77-91 | an already billed barrel is billed again when the provider, quantity and price checks pass, and it gains one more line |
| `Demo.SeedState` | billing/management/commands/seed_demo.py:15-29 | the seeded store is consistent, owes nothing yet, and Acme Oils has 350 liters to bill |
| `Demo.SeedBilling` | billing/management/commands/seed_demo.py:30-35 | billing B-001 for 200 L at 3.50 succeeds with a 700.00 line and a 700.00 invoice total; B-001 becomes billed, B-002 stays unbilled, and 150 L remain to bill |
| `Demo.SeedRebillingPartial` | billing/models.py:90-91 | a 150 L request on the billed 200 L barrel B-001 fails with a partial-billing error |
| `Demo.SeedRebillingFull` | billing/models.py:77-101 | a second full 200 L request on B-001 succeeds, leaving it on two lines of INV-0001 with a total of 1400.00 |

## Left out

- Persistence: the ORM, queries against a real database, and enforcement of the `unique_together`, `unique=True`, CASCADE and PROTECT constraints (billing/models.py:40, 50, 57, 60, 106-108). The uniqueness and reference constraints appear as the state invariant `Models.Valid`. No delete operation is modelled.
- Transaction isolation and concurrent callers: only the all-or-nothing outcome of one call is modelled.
- `total_liters` returns a `float`; the model keeps the sum an exact integer.
- Prices are integer cents. A `Decimal` price finer than a cent has no counterpart, and neither has the rounding the database applies when storing one.
- The database's range limits are not modelled: the 12-digit bound on `unit_price`, the 255-character bound on `description`, and the integer width of `PositiveIntegerField`.
- Field validators (`MinValueValidator`) are not run by `objects.create`, and the database does not enforce them. They appear only as the invariant `Models.FieldsInRange`, which the engine's own checks keep for the lines it creates.
- Queries.LitersToBillBounds: the sign needs only the database's check that liters are not negative (`Models.SchemaRanges`). The "0 only if nothing is unbilled" direction also needs every barrel to hold at least one liter, which is the validator on billing/models.py:44 and is not enforced by the database. A 0-liter unbilled barrel, which the database accepts, makes the amount 0. The zero direction holds in every store (`Queries.LitersToBillZero`).
- Queries.CalculateTotalBounds: non-negativity also needs line prices of zero or more. The database has no check on `unit_price`; only the validator on billing/models.py:113 asks for it. The zero total of an empty invoice holds in every store (`Queries.CalculateTotalZero`).
- `oil_type` is a closed enumeration (`Models.OilType`). In the source its `choices` (billing/models.py:43) are a validator that neither `objects.create` nor the database enforces, so a stored row may hold another string.
- Error values carry the data their messages name; the message text itself is not built.
- The `__str__` methods, the REST serializers and filters (billing/api/), and the output of the seeding command are not modelled.
- `get_has_barrels_to_bill` (billing/api/serializers.py:15-16) calls a `Provider` method that does not exist, and is not modelled.
- The engine reads the invoice's provider and the barrel's provider and liters from the stored rows, and sets `billed` on the stored barrel. The source uses the caller's in-memory instances instead. It compares and names `barrel.provider` and `self.provider` (billing/models.py:77-81), checks `barrel.liters` (billing/models.py:90), stores the line under the invoice's id (billing/models.py:94), and saves only the barrel's `billed` field (billing/models.py:101). The model assumes both instances match their stored rows. Suppose an instance has unsaved changes, such as a barrel's `liters` or an invoice's `provider` altered. Then the source can store a line that disagrees with the rows, and `Billing.Consistent` is not preserved.
- The invoice and the barrel are passed by id. `Billing.Resolves` requires that both ids, and their providers, exist. The source receives persisted model instances, whose foreign keys always resolve.

=== FILE: billing.dfy ===
/** The billing engine: adding a line for a whole barrel to an invoice and
    marking the barrel billed, as one all-or-nothing step. */
module Billing {
  import opened Wrappers
  import opened Models
  import opened Queries

  /** Why a billing request was rejected, checked in this order. */
  datatype BillingError =
    | ProviderMismatch(barrelNumber: string, barrelProvider: string, invoiceProvider: string)
    | InvalidQuantity
    | InvalidPrice
    | PartialBilling

  /** A successful billing: the store after the transaction and the new line. */
  datatype LineAdded = LineAdded(store: Store, line: InvoiceLine)

  /** The invoice and the barrel handed to the engine are existing rows, and
      so are their providers (whose names the mismatch error reports). */
  predicate Resolves(s: Store, inv: InvoiceId, b: BarrelId) {
    && inv < |s.invoices|
    && b < |s.barrels|
    && s.invoices[inv].provider < |s.providers|
    && s.barrels[b].provider < |s.providers|
  }

  /** The request passes all four checks of the engine. */
  predicate Accepts(s: Store, inv: InvoiceId, b: BarrelId, liters: int, unitPrice: int)
    requires Resolves(s, inv, b)
  {
    s.barrels[b].provider == s.invoices[inv].provider && liters > 0 && unitPrice > 0 && liters == s.barrels[b].liters
  }

  /** Bills barrel `b` in full on invoice `inv` at `unitPrice` cents per
      liter. The checks run in a fixed order and the first that fails is
      reported; on success a line is appended and only the barrel's `billed`
      flag changes. There is no check that the barrel is still unbilled. */
  function AddLineForBarrel(s: Store, inv: InvoiceId, b: BarrelId, liters: int, unitPrice: int, description: string)
    : (r: Result<LineAdded, BillingError>)
    requires Resolves(s, inv, b)
    // error precedence: provider, then quantity, then price, then full barrel
    ensures s.barrels[b].provider != s.invoices[inv].provider ==>
      r == Failure(ProviderMismatch(s.barrels[b].number,
                                    s.providers[s.barrels[b].provider].name,
                                    s.providers[s.invoices[inv].provider].name))
    ensures s.barrels[b].provider == s.invoices[inv].provider && liters <= 0 ==>
      r == Failure(InvalidQuantity)
    ensures s.barrels[b].provider == s.invoices[inv].provider && liters > 0 && unitPrice <= 0 ==>
      r == Failure(InvalidPrice)
    ensures s.barrels[b].provider == s.invoices[inv].provider && liters > 0 && unitPrice > 0
            && liters != s.barrels[b].liters ==>
      r == Failure(PartialBilling)
    ensures r.Success? <==> Accepts(s, inv, b, liters, unitPrice)
    // exactly one line, carrying the caller's values, is appended
    ensures r.Success? ==>
      && r.value.line.invoice == inv && r.value.line.barrel == b
      && r.value.line.liters == liters && r.value.line.unitPrice == unitPrice
      && r.value.line.description == description
      && r.value.store.lines == s.lines + [r.value.line]
    // the barrel is now billed and nothing else about the store changed
    ensures r.Success? ==>
      && r.value.store.providers == s.providers
      && r.value.store.invoices == s.invoices
      && |r.value.store.barrels| == |s.barrels|
      && r.value.store.barrels[b].billed
      && r.value.store.barrels[b].(billed := s.barrels[b].billed) == s.barrels[b]
      && (forall j :: 0 <= j < |s.barrels| && j != b ==> r.value.store.barrels[j] == s.barrels[j])
  {
    var barrel := s.barrels[b];
    var invoice := s.invoices[inv];
    if barrel.provider != invoice.provider then
      Failure(ProviderMismatch(barrel.number, s.providers[barrel.provider].name, s.providers[invoice.provider].name))
    else if liters <= 0 then
      Failure(InvalidQuantity)
    else if unitPrice <= 0 then
      Failure(InvalidPrice)
    else if barrel.liters != liters then
      Failure(PartialBilling)
    else
      var line := InvoiceLine(inv, b, liters, description, unitPrice);
      Success(LineAdded(s.(lines := s.lines + [line], barrels := s.barrels[b := barrel.(billed := true)]), line))
  }

  /** The store as other operations see it once the transaction has ended:
      the new store after a success, the untouched store after a rollback. */
  function Commit(s: Store, r: Result<LineAdded, BillingError>): Store {
    match r
    case Success(added) => added.store
    case Failure(_) => s
  }

  // ---------------------------------------------------------------------
  // Cross-entity invariants the engine maintains
  // ---------------------------------------------------------------------

  /** Every line bills a barrel of its own invoice's provider. */
  predicate LinesMatchProviders(s: Store)
    requires ReferencesResolve(s)
  {
    forall i :: 0 <= i < |s.lines| ==>
      s.barrels[s.lines[i].barrel].provider == s.invoices[s.lines[i].invoice].provider
  }

  /** Every line bills its barrel's full volume. */
  predicate LinesBillFullBarrels(s: Store)
    requires ReferencesResolve(s)
  {
    forall i :: 0 <= i < |s.lines| ==> s.lines[i].liters == s.barrels[s.lines[i].barrel].liters
  }

  /** Every barrel that appears on a line is marked billed. */
  predicate LinedBarrelsBilled(s: Store)
    requires ReferencesResolve(s)
  {
    forall i :: 0 <= i < |s.lines| ==> s.barrels[s.lines[i].barrel].billed
  }

  predicate Consistent(s: Store) {
    && Valid(s)
    && LinesMatchProviders(s)
    && LinesBillFullBarrels(s)
    && LinedBarrelsBilled(s)
  }

  /** Whatever the request, the store after the transaction still satisfies
      the schema constraints and the engine's cross-entity invariants. */
  lemma AddLinePreservesConsistent(s: Store, inv: InvoiceId, b: BarrelId, liters: int, unitPrice: int, description: string)
    requires Consistent(s) && Resolves(s, inv, b)
    ensures Consistent(Commit(s, AddLineForBarrel(s, inv, b, liters, unitPrice, description)))
  {
  }

  /** A billed barrel stays billed: no request clears the flag. */
  lemma BilledIsPermanent(s: Store, inv: InvoiceId, b: BarrelId, liters: int, unitPrice: int, description: string, j: BarrelId)
    requires Resolves(s, inv, b) && j < |s.barrels| && s.barrels[j].billed
    ensures j < |Commit(s, AddLineForBarrel(s, inv, b, liters, unitPrice, description)).barrels|
    ensures Commit(s, AddLineForBarrel(s, inv, b, liters, unitPrice, description)).barrels[j].billed
  {
  }

  /** The transaction is all or nothing. The committed store is the old
      one exactly when the request is rejected; an accepted request commits
      both writes, the new line and the barrel's flag, and nothing else. A
      barrel of another provider is always rejected with a provider mismatch. */
  lemma AllOrNothing(s: Store, inv: InvoiceId, b: BarrelId, liters: int, unitPrice: int, description: string)
    requires Resolves(s, inv, b)
    ensures Commit(s, AddLineForBarrel(s, inv, b, liters, unitPrice, description)) == s
        <==> !Accepts(s, inv, b, liters, unitPrice)
    ensures Accepts(s, inv, b, liters, unitPrice) ==>
      Commit(s, AddLineForBarrel(s, inv, b, liters, unitPrice, description))
      == s.(lines := s.lines + [InvoiceLine(inv, b, liters, description, unitPrice)],
            barrels := s.barrels[b := s.barrels[b].(billed := true)])
    ensures s.barrels[b].provider != s.invoices[inv].provider ==>
      && AddLineForBarrel(s, inv, b, liters, unitPrice, description).Failure?
      && AddLineForBarrel(s, inv, b, liters, unitPrice, description).error.ProviderMismatch?
  {
  }

  /** After a successful request, each provider's unbilled liters drop by
      the barrel's share: its full volume for its own provider if it was
      unbilled before, nothing if it was already billed or for any other
      provider. */
  lemma {:induction false} LitersToBillAfterBilling(s: Store, inv: InvoiceId, b: BarrelId, liters: int, unitPrice: int, description: string, p: ProviderId)
    requires Resolves(s, inv, b)
    requires Accepts(s, inv, b, liters, unitPrice)
    ensures LitersToBill(AddLineForBarrel(s, inv, b, liters, unitPrice, description).value.store, p)
         == LitersToBill(s, p) - UnbilledShare(s.barrels[b], p)
    ensures !s.barrels[b].billed && p == s.barrels[b].provider ==>
      LitersToBill(AddLineForBarrel(s, inv, b, liters, unitPrice, description).value.store, p)
      == LitersToBill(s, p) - liters
  {
    var s' := AddLineForBarrel(s, inv, b, liters, unitPrice, description).value.store;
    assert LitersToBill(s', p) == LitersToBill(s.(barrels := s.barrels[b := s.barrels[b].(billed := true)]), p);
    LitersToBillAfterMarking(s, b, p);
  }

  /** After a successful request the invoice's total grows by liters times
      unit price, and every other invoice's total is unchanged. */
  lemma {:induction false} TotalAfterBilling(s: Store, inv: InvoiceId, b: BarrelId, liters: int, unitPrice: int, description: string, j: InvoiceId)
    requires Resolves(s, inv, b)
    requires Accepts(s, inv, b, liters, unitPrice)
    ensures CalculateTotal(AddLineForBarrel(s, inv, b, liters, unitPrice, description).value.store, j)
         == CalculateTotal(s, j) + (if j == inv then liters * unitPrice else 0)
  {
    var r := AddLineForBarrel(s, inv, b, liters, unitPrice, description);
    InvoiceAmountAppend(s.lines, r.value.line, j);
  }

  /** Each success adds exactly one line for the barrel and none for any
      other barrel. */
  lemma {:induction false} LineCountAfterBilling(s: Store, inv: InvoiceId, b: BarrelId, liters: int, unitPrice: int, description: string, c: BarrelId)
    requires Resolves(s, inv, b)
    requires Accepts(s, inv, b, liters, unitPrice)
    ensures LineCount(AddLineForBarrel(s, inv, b, liters, unitPrice, description).value.store.lines, c)
         == LineCount(s.lines, c) + (if c == b then 1 else 0)
  {
    var r := AddLineForBarrel(s, inv, b, liters, unitPrice, description);
    LineCountAppend(s.lines, r.value.line, c);
  }

  /** In a consistent store an unbilled barrel is on no line, so billing it
      leaves it on exactly one. */
  lemma {:induction false} FirstBillingGivesOneLine(s: Store, inv: InvoiceId, b: BarrelId, unitPrice: int, description: string)
    requires Consistent(s) && Resolves(s, inv, b)
    requires !s.barrels[b].billed && s.barrels[b].provider == s.invoices[inv].provider && unitPrice > 0
    ensures AddLineForBarrel(s, inv, b, s.barrels[b].liters, unitPrice, description).Success?
    ensures LineCount(AddLineForBarrel(s, inv, b, s.barrels[b].liters, unitPrice, description).value.store.lines, b) == 1
  {
    LineCountAfterBilling(s, inv, b, s.barrels[b].liters, unitPrice, description, b);
  }

  /** The engine never looks at `billed`: a barrel already billed is billed
      again when the request is otherwise acceptable, and ends up on one more
      line. A barrel can therefore be billed more than once. */
  lemma {:induction false} BilledBarrelIsBilledAgain(s: Store, inv: InvoiceId, b: BarrelId, unitPrice: int, description: string)
    requires Resolves(s, inv, b)
    requires s.barrels[b].billed && s.barrels[b].provider == s.invoices[inv].provider
    requires s.barrels[b].liters > 0 && unitPrice > 0
    ensures AddLineForBarrel(s, inv, b, s.barrels[b].liters, unitPrice, description).Success?
    ensures LineCount(AddLineForBarrel(s, inv, b, s.barrels[b].liters, unitPrice, description).value.store.lines, b)
         == LineCount(s.lines, b) + 1
  {
    LineCountAfterBilling(s, inv, b, s.barrels[b].liters, unitPrice, description, b);
  }
}

=== FILE: demo.dfy ===
/** The demonstration data set: one provider with two barrels and one
    invoice, on which the first barrel is billed in full at 3.50 per liter. */
module Demo {
  import opened Wrappers
  import opened Models
  import opened Queries
  import opened Billing

  /** The seeded store before any billing; `today` stands for the clock. */
  function Seed(today: Date): Store {
    Store(
      [Provider("Acme Oils", "123 Industrial Ave", "TAX-123")],
      [Barrel(0, "B-001", Virgin, 200, false), Barrel(0, "B-002", ExtraVirgin, 150, false)],
      [Invoice("INV-0001", today, 0)],
      [])
  }

  /** Billing B-001 on INV-0001: 200 liters at 350 cents per liter. */
  function BillFirstBarrel(s: Store, liters: int): Result<LineAdded, BillingError>
    requires Resolves(s, 0, 0)
  {
    AddLineForBarrel(s, 0, 0, liters, 350, "Olive oil barrel B-001")
  }

  /** The seeded store is consistent, owes nothing yet and has 350 liters to bill. */
  lemma SeedState(today: Date)
    ensures Consistent(Seed(today))
    ensures LitersToBill(Seed(today), 0) == 350
    ensures CalculateTotal(Seed(today), 0) == 0
  {
  }

  /** Billing B-001 succeeds with a 700.00 line; B-001 becomes billed,
      B-002 stays unbilled and 150 liters remain to bill. */
  lemma SeedBilling(today: Date)
    ensures BillFirstBarrel(Seed(today), 200).Success?
    ensures Amount(BillFirstBarrel(Seed(today), 200).value.line) == 70000
    ensures CalculateTotal(BillFirstBarrel(Seed(today), 200).value.store, 0) == 70000
    ensures LitersToBill(BillFirstBarrel(Seed(today), 200).value.store, 0) == 150
    ensures BillFirstBarrel(Seed(today), 200).value.store.barrels[0].billed
    ensures !BillFirstBarrel(Seed(today), 200).value.store.barrels[1].billed
  {
    var s := Seed(today);
    SeedState(today);
    LitersToBillAfterBilling(s, 0, 0, 200, 350, "Olive oil barrel B-001", 0);
    TotalAfterBilling(s, 0, 0, 200, 350, "Olive oil barrel B-001", 0);
  }

  /** Once B-001 is billed, asking for 150 liters of it is rejected as a
      partial billing, since nothing checks the billed flag first. */
  lemma SeedRebillingPartial(today: Date)
    ensures BillFirstBarrel(Seed(today), 200).Success?
    ensures BillFirstBarrel(BillFirstBarrel(Seed(today), 200).value.store, 150) == Failure(PartialBilling)
  {
    SeedBilling(today);
  }

  /** Once B-001 is billed, asking again for its full 200 liters succeeds
      and leaves the barrel on two lines of INV-0001, totalling 1400.00. */
  lemma SeedRebillingFull(today: Date)
    ensures BillFirstBarrel(Seed(today), 200).Success?
    ensures BillFirstBarrel(BillFirstBarrel(Seed(today), 200).value.store, 200).Success?
    ensures LineCount(BillFirstBarrel(BillFirstBarrel(Seed(today), 200).value.store, 200).value.store.lines, 0) == 2
    ensures CalculateTotal(BillFirstBarrel(BillFirstBarrel(Seed(today), 200).value.store, 200).value.store, 0) == 140000
  {
    var s1 := BillFirstBarrel(Seed(today), 200).value.store;
    SeedBilling(today);
    BilledBarrelIsBilledAgain(s1, 0, 0, 350, "Olive oil barrel B-001");
    LineCountAfterBilling(Seed(today), 0, 0, 200, 350, "Olive oil barrel B-001", 0);
    TotalAfterBilling(s1, 0, 0, 200, 350, "Olive oil barrel B-001", 0);
  }
}

=== FILE: models.dfy ===
/** The entities of the barrel-billing domain: providers, the barrels they
    supply, the invoices issued to them and the lines of those invoices, kept
    together in one immutable store value. Database rows are identified by
    their position in the store's sequences. */
module Models {

  type ProviderId = nat
  type BarrelId = nat
  type InvoiceId = nat

  /** An oil supplier. */
  datatype Provider = Provider(name: string, address: string, taxId: string)

  /** The four oil classifications a barrel may hold (codes EVOO, EVO, ROO, OPO). */
  datatype OilType = ExtraVirgin | Virgin | Refined | Pomace

  /** A barrel of oil owned by one provider; `number` is unique per provider
      and `billed` starts out false. */
  datatype Barrel = Barrel(
    provider: ProviderId,
    number: string,
    oilType: OilType,
    liters: int,
    billed: bool)

  datatype Date = Date(year: int, month: int, day: int)

  /** An invoice for one provider; `invoiceNo` is unique across all invoices. */
  datatype Invoice = Invoice(invoiceNo: string, issuedOn: Date, provider: ProviderId)

  /** One billed barrel on an invoice. `unitPrice` is the price per liter in
      cents (the source's two-decimal-place currency amount times 100). */
  datatype InvoiceLine = InvoiceLine(
    invoice: InvoiceId,
    barrel: BarrelId,
    liters: int,
    description: string,
    unitPrice: int)

  /** The whole persistent state. Lines are kept in creation order. */
  datatype Store = Store(
    providers: seq<Provider>,
    barrels: seq<Barrel>,
    invoices: seq<Invoice>,
    lines: seq<InvoiceLine>)

  /** Every foreign key names an existing row. */
  predicate ReferencesResolve(s: Store) {
    && (forall i :: 0 <= i < |s.barrels| ==> s.barrels[i].provider < |s.providers|)
    && (forall i :: 0 <= i < |s.invoices| ==> s.invoices[i].provider < |s.providers|)
    && (forall i :: 0 <= i < |s.lines| ==> s.lines[i].invoice < |s.invoices| && s.lines[i].barrel < |s.barrels|)
  }

  /** The database's own range checks: `PositiveIntegerField` columns hold
      no negative value. */
  predicate SchemaRanges(s: Store) {
    && (forall i :: 0 <= i < |s.barrels| ==> s.barrels[i].liters >= 0)
    && (forall i :: 0 <= i < |s.lines| ==> s.lines[i].liters >= 0)
  }

  /** The ranges of the field validators: barrel and line quantities are
      at least one liter, and a line's unit price is at least one cent. The
      database itself does not enforce these; the billing engine's own checks
      keep them for the lines it creates. */
  predicate FieldsInRange(s: Store) {
    && (forall i :: 0 <= i < |s.barrels| ==> s.barrels[i].liters >= 1)
    && (forall i :: 0 <= i < |s.lines| ==> s.lines[i].liters >= 1 && s.lines[i].unitPrice >= 1)
  }

  /** No provider has two barrels with the same number. */
  predicate UniqueBarrelNumbers(s: Store) {
    forall i, j :: 0 <= i < j < |s.barrels| && s.barrels[i].provider == s.barrels[j].provider ==>
      s.barrels[i].number != s.barrels[j].number
  }

  /** No two invoices share an invoice number. */
  predicate UniqueInvoiceNumbers(s: Store) {
    forall i, j :: 0 <= i < j < |s.invoices| ==> s.invoices[i].invoiceNo != s.invoices[j].invoiceNo
  }

  /** The schema's reference, range and uniqueness constraints, plus the
      field validators' ranges. */
  predicate Valid(s: Store) {
    && ReferencesResolve(s)
    && SchemaRanges(s)
    && FieldsInRange(s)
    && UniqueBarrelNumbers(s)
    && UniqueInvoiceNumbers(s)
  }
}

=== FILE: queries.dfy ===
/** The read-only aggregates over the store: a provider's unbilled liters
    and an invoice's total amount. Both are filters followed by a sum; each
    is related by a lemma to a one-pass reference sum over the whole store. */
module Queries {
  import opened Models

  // ---------------------------------------------------------------------
  // Barrels
  // ---------------------------------------------------------------------

  /** The barrels owned by provider `p`, in store order (`provider.barrels`). */
  function BarrelsOf(bs: seq<Barrel>, p: ProviderId): (r: seq<Barrel>)
    ensures |r| <= |bs|
    ensures forall x :: multiset(r)[x] == if x.provider == p then multiset(bs)[x] else 0
  {
    if |bs| == 0 then []
    else
      assert bs == [bs[0]] + bs[1..];
      (if bs[0].provider == p then [bs[0]] else []) + BarrelsOf(bs[1..], p)
  }

  /** The barrels not yet billed, in their original order (`unbilled()`). */
  function Unbilled(bs: seq<Barrel>): (r: seq<Barrel>)
    ensures |r| <= |bs|
    ensures forall x :: multiset(r)[x] == if !x.billed then multiset(bs)[x] else 0
  {
    if |bs| == 0 then []
    else
      assert bs == [bs[0]] + bs[1..];
      (if !bs[0].billed then [bs[0]] else []) + Unbilled(bs[1..])
  }

  /** Membership in the barrel filters follows from their element counts:
      a barrel is kept exactly when it is in the input and passes the filter. */
  lemma BarrelFilterMembership(bs: seq<Barrel>, p: ProviderId)
    ensures forall x :: x in BarrelsOf(bs, p) <==> x in bs && x.provider == p
    ensures forall x :: x in Unbilled(bs) <==> x in bs && !x.billed
  {
  }

  /** The sum of the barrels' liters, zero when there are none (`total_liters()`). */
  function TotalLiters(bs: seq<Barrel>): (r: int)
    ensures (forall i :: 0 <= i < |bs| ==> bs[i].liters >= 0) ==> r >= 0
  {
    if |bs| == 0 then 0 else bs[0].liters + TotalLiters(bs[1..])
  }

  /** The liters of provider `p` still waiting to be billed (`liters_to_bill()`):
      filtering by provider, then by billed state, then summing, gives the
      one-pass reference sum. */
  function LitersToBill(s: Store, p: ProviderId): (r: int)
    ensures r == UnbilledLiters(s.barrels, p)
  {
    UnbilledOfBarrelsOf(s.barrels, p);
    TotalLiters(Unbilled(BarrelsOf(s.barrels, p)))
  }

  /** What one barrel contributes to its provider's unbilled liters. */
  function UnbilledShare(b: Barrel, p: ProviderId): int {
    if b.provider == p && !b.billed then b.liters else 0
  }

  /** Reference definition: one pass over all barrels, adding the liters of
      those owned by `p` and not billed. */
  function UnbilledLiters(bs: seq<Barrel>, p: ProviderId): int {
    if |bs| == 0 then 0 else UnbilledShare(bs[0], p) + UnbilledLiters(bs[1..], p)
  }

  lemma {:induction false} UnbilledOfBarrelsOf(bs: seq<Barrel>, p: ProviderId)
    ensures TotalLiters(Unbilled(BarrelsOf(bs, p))) == UnbilledLiters(bs, p)
  {
    if |bs| > 0 {
      var rest := BarrelsOf(bs[1..], p);
      UnbilledOfBarrelsOf(bs[1..], p);
      if bs[0].provider == p {
        assert BarrelsOf(bs, p) == [bs[0]] + rest;
        assert ([bs[0]] + rest)[1..] == rest;
        if !bs[0].billed {
          assert Unbilled([bs[0]] + rest) == [bs[0]] + Unbilled(rest);
          assert ([bs[0]] + Unbilled(rest))[1..] == Unbilled(rest);
        } else {
          assert Unbilled([bs[0]] + rest) == Unbilled(rest);
        }
      } else {
        assert BarrelsOf(bs, p) == rest;
      }
    }
  }

  /** A provider none of whose barrels is waiting to be billed has nothing
      to bill. This holds in every store. */
  lemma LitersToBillZero(s: Store, p: ProviderId)
    ensures (forall i :: 0 <= i < |s.barrels| ==> UnbilledShare(s.barrels[i], p) == 0) ==> LitersToBill(s, p) == 0
  {
    UnbilledLitersZero(s.barrels, p);
  }

  lemma {:induction false} UnbilledLitersZero(bs: seq<Barrel>, p: ProviderId)
    ensures (forall i :: 0 <= i < |bs| ==> UnbilledShare(bs[i], p) == 0) ==> UnbilledLiters(bs, p) == 0
  {
    if |bs| > 0 && forall i :: 0 <= i < |bs| ==> UnbilledShare(bs[i], p) == 0 {
      assert forall i :: 0 <= i < |bs| - 1 ==> UnbilledShare(bs[1..][i], p) == UnbilledShare(bs[i + 1], p);
      UnbilledLitersZero(bs[1..], p);
    }
  }

  /** A provider's liters to bill are never negative, since the schema
      keeps every barrel's liters at zero or more. When every barrel also
      holds at least one liter, they are 0 exactly when the provider has no
      unbilled barrel. */
  lemma LitersToBillBounds(s: Store, p: ProviderId)
    requires SchemaRanges(s)
    ensures LitersToBill(s, p) >= 0
    ensures FieldsInRange(s) ==>
      ((forall i :: 0 <= i < |s.barrels| ==> UnbilledShare(s.barrels[i], p) == 0) <==> LitersToBill(s, p) == 0)
  {
    UnbilledLitersSign(s.barrels, p);
  }

  lemma {:induction false} UnbilledLitersSign(bs: seq<Barrel>, p: ProviderId)
    requires forall i :: 0 <= i < |bs| ==> bs[i].liters >= 0
    ensures UnbilledLiters(bs, p) >= 0
    ensures (forall i :: 0 <= i < |bs| ==> bs[i].liters >= 1) ==>
      ((forall i :: 0 <= i < |bs| ==> UnbilledShare(bs[i], p) == 0) <==> UnbilledLiters(bs, p) == 0)
  {
    if |bs| > 0 {
      assert forall i :: 0 <= i < |bs| - 1 ==> bs[1..][i] == bs[i + 1];
      UnbilledLitersSign(bs[1..], p);
      if !(forall i :: 0 <= i < |bs| ==> bs[i].liters >= 1) {
      } else if forall i :: 0 <= i < |bs| ==> UnbilledShare(bs[i], p) == 0 {
        assert UnbilledShare(bs[0], p) == 0;
        assert forall i :: 0 <= i < |bs| - 1 ==> UnbilledShare(bs[1..][i], p) == UnbilledShare(bs[i + 1], p);
      } else {
        var k :| 0 <= k < |bs| && UnbilledShare(bs[k], p) != 0;
        if k > 0 {
          assert UnbilledShare(bs[1..][k - 1], p) != 0;
        }
      }
    }
  }

  /** Marking barrel `i` as billed lowers each provider's unbilled liters by
      exactly that barrel's share: its liters for its own provider if it was
      still unbilled, nothing otherwise. */
  lemma {:induction false} UnbilledLitersAfterMarking(bs: seq<Barrel>, i: nat, p: ProviderId)
    requires i < |bs|
    ensures UnbilledLiters(bs[i := bs[i].(billed := true)], p) == UnbilledLiters(bs, p) - UnbilledShare(bs[i], p)
  {
    var bs' := bs[i := bs[i].(billed := true)];
    if i > 0 {
      assert bs'[1..] == bs[1..][i - 1 := bs[1..][i - 1].(billed := true)];
      UnbilledLitersAfterMarking(bs[1..], i - 1, p);
    } else {
      assert bs'[1..] == bs[1..];
    }
  }

  /** Marking barrel `b` as billed lowers provider `p`'s liters to bill by
      the barrel's share, and by nothing when the barrel was already billed
      or belongs to another provider. */
  lemma {:induction false} LitersToBillAfterMarking(s: Store, b: BarrelId, p: ProviderId)
    requires b < |s.barrels|
    ensures LitersToBill(s.(barrels := s.barrels[b := s.barrels[b].(billed := true)]), p)
         == LitersToBill(s, p) - UnbilledShare(s.barrels[b], p)
  {
    UnbilledLitersAfterMarking(s.barrels, b, p);
  }

  // ---------------------------------------------------------------------
  // Invoice lines
  // ---------------------------------------------------------------------

  /** The lines of invoice `inv`, in store order (`invoice.lines.all()`). */
  function LinesOf(ls: seq<InvoiceLine>, inv: InvoiceId): (r: seq<InvoiceLine>)
    ensures |r| <= |ls|
    ensures forall x :: multiset(r)[x] == if x.invoice == inv then multiset(ls)[x] else 0
  {
    if |ls| == 0 then []
    else
      assert ls == [ls[0]] + ls[1..];
      (if ls[0].invoice == inv then [ls[0]] else []) + LinesOf(ls[1..], inv)
  }

  /** A line is among an invoice's lines exactly when it is in the store
      and points at that invoice. */
  lemma LineFilterMembership(ls: seq<InvoiceLine>, inv: InvoiceId)
    ensures forall x :: x in LinesOf(ls, inv) <==> x in ls && x.invoice == inv
  {
  }

  /** The amount of one line, in cents: liters times unit price. */
  function Amount(l: InvoiceLine): int {
    l.liters * l.unitPrice
  }

  /** The sum of the lines' amounts, zero when there are none. */
  function Total(ls: seq<InvoiceLine>): (r: int)
    ensures (forall i :: 0 <= i < |ls| ==> ls[i].liters >= 0 && ls[i].unitPrice >= 0) ==> r >= 0
  {
    if |ls| == 0 then 0 else Amount(ls[0]) + Total(ls[1..])
  }

  /** The amount due on invoice `inv`, in cents (`calculate_total()`): the
      sum of liters times unit price over exactly its own lines. */
  function CalculateTotal(s: Store, inv: InvoiceId): (r: int)
    ensures r == InvoiceAmount(s.lines, inv)
  {
    TotalOfLinesOf(s.lines, inv);
    Total(LinesOf(s.lines, inv))
  }

  /** What one line contributes to the total of invoice `inv`. */
  function InvoiceShare(l: InvoiceLine, inv: InvoiceId): int {
    if l.invoice == inv then Amount(l) else 0
  }

  /** Reference definition: one pass over all lines, adding the amounts of
      those on invoice `inv`. */
  function InvoiceAmount(ls: seq<InvoiceLine>, inv: InvoiceId): int {
    if |ls| == 0 then 0 else InvoiceShare(ls[0], inv) + InvoiceAmount(ls[1..], inv)
  }

  lemma {:induction false} TotalOfLinesOf(ls: seq<InvoiceLine>, inv: InvoiceId)
    ensures Total(LinesOf(ls, inv)) == InvoiceAmount(ls, inv)
  {
    if |ls| > 0 {
      TotalOfLinesOf(ls[1..], inv);
      var head := if ls[0].invoice == inv then [ls[0]] else [];
      TotalAppend(head, LinesOf(ls[1..], inv));
      if ls[0].invoice == inv {
        assert head[1..] == [];
      }
    }
  }

  lemma {:induction false} TotalAppend(a: seq<InvoiceLine>, b: seq<InvoiceLine>)
    ensures Total(a + b) == Total(a) + Total(b)
  {
    if |a| == 0 {
      assert a + b == b;
    } else {
      assert (a + b)[1..] == a[1..] + b;
      TotalAppend(a[1..], b);
    }
  }

  /** An invoice with no lines totals zero. This holds in every store. */
  lemma CalculateTotalZero(s: Store, inv: InvoiceId)
    ensures (forall i :: 0 <= i < |s.lines| ==> s.lines[i].invoice != inv) ==> CalculateTotal(s, inv) == 0
  {
  }

  /** No invoice total is negative when no line has a negative price; the
      schema already keeps line liters at zero or more. */
  lemma CalculateTotalBounds(s: Store, inv: InvoiceId)
    requires SchemaRanges(s)
    requires forall i :: 0 <= i < |s.lines| ==> s.lines[i].unitPrice >= 0
    ensures CalculateTotal(s, inv) >= 0
  {
  }

  /** Appending a line adds its amount to its own invoice's reference sum
      and leaves every other invoice's sum alone. */
  lemma {:induction false} InvoiceAmountAppend(ls: seq<InvoiceLine>, l: InvoiceLine, inv: InvoiceId)
    ensures InvoiceAmount(ls + [l], inv) == InvoiceAmount(ls, inv) + InvoiceShare(l, inv)
  {
    if |ls| == 0 {
      assert ls + [l] == [l];
      assert [l][1..] == [];
    } else {
      assert (ls + [l])[1..] == ls[1..] + [l];
      InvoiceAmountAppend(ls[1..], l, inv);
    }
  }

  /** How many lines bill barrel `b`. */
  function LineCount(ls: seq<InvoiceLine>, b: BarrelId): (r: nat)
    ensures r <= |ls|
    ensures r == 0 <==> forall i :: 0 <= i < |ls| ==> ls[i].barrel != b
  {
    if |ls| == 0 then 0
    else (if ls[0].barrel == b then 1 else 0) + LineCount(ls[1..], b)
  }

  lemma {:induction false} LineCountAppend(ls: seq<InvoiceLine>, l: InvoiceLine, b: BarrelId)
    ensures LineCount(ls + [l], b) == LineCount(ls, b) + (if l.barrel == b then 1 else 0)
  {
    if |ls| == 0 {
      assert ls + [l] == [l];
      assert [l][1..] == [];
    } else {
      assert (ls + [l])[1..] == ls[1..] + [l];
      LineCountAppend(ls[1..], l, b);
    }
  }
}

=== FILE: wrappers.dfy ===
/** The outcome of an operation that either succeeds with a value or is
    rejected with an error value. */
module Wrappers {

  datatype Result<+T, +E> = Success(value: T) | Failure(error: E)
}
